=== FILE: README.md ===
# Tetris3D game core in Dafny

This project models the simulation core of Tetris3D, a 3D falling-block game.
The play field is 10 × 10 cells wide and deep. Full horizontal layers are
cleared. The model covers:

- the collision test (`checkCollision`);
- spawning one of seven four-cube archetypes (`spawnPiece`);
- moving, soft-dropping, hard-dropping and rotating the falling piece (the
  game branches of `key_callback`);
- the gravity step of the main loop;
- locking a piece and clearing full layers (`mergePiece`);
- the session controls: reset, pause and material cycling, with
  `applyMaterialToCurrentPiece`.

The whole game state is one immutable `Game.Session` record. Each input is a
pure step function.

Modules, leaves first:

- `Geometry` (geometry.dfy): integer lattice positions and the quarter turn
  about the vertical axis.
- `Field` (field.dfy): field constants, cubes, legality, and the collision
  test.
- `Palette` (palette.dfy): the five material presets and the cyclic index.
- `Piece` (piece.dfy): the archetype table, and placing, translating,
  rotating and recolouring a piece.
- `Compaction` (compaction.dfy): layers, the single-layer clear, the clearing
  pass with its re-check, and `Merge` (the lock).
- `Game` (game.dfy): the session record, the commands, the gravity step, the
  session invariant and the proof that every input keeps it.
- `Shape` (shape.dfy): the piece invariants, that the falling piece is an
  archetype turned about its centre and that its cubes share one material.
- `Scenarios` (scenarios.dfy): the first hard drop of a game, and a lock that
  completes one layer.

Modelling choices:

- Positions are integer triples, and the game's `round(...)` calls are the
  identity. This is exact because of how positions arise:
  - the spawn centre (5, 18, 5) is integral;
  - every archetype offset is integral;
  - every move is by a unit vector;
  - rotated offsets are rounded.
- glm's `rotateY` is not part of this model. It is assumed to map an offset
  (x, y, z) to (z, y, −x) at +90° (key E) and to (−z, y, x) at −90° (key Q).
  `Geometry.TurnOffset` states this map.
- A cube's material is an index into the five-entry palette.
- The random archetype choice `rand() % 7` becomes a `roll: nat` argument.
  The archetype used is `roll % 7`.
- The wall-clock fall test becomes an explicit `FallDue` event.

Behaviour of the game worth noting, as the code has it:

- P flips `paused` even after the game is over (src/main.cpp:463).
- R resets from every state, including game over (src/main.cpp:455-461).
- A layer is cleared when it holds at least 100 cubes (src/main.cpp:329).
  `Compaction.LayerBound` shows that on a well-formed field this means
  exactly 100.

## Model

| member | source | states |
|---|---|---|
| Geometry.TurnOffset | src/main.cpp:502-506 | a quarter turn keeps the height and the horizontal length of an offset and makes the horizontal part perpendicular to the old one; the sign of the cross product fixes the direction, so E gives (z, y, −x) and Q gives (−z, y, x) |
| Geometry.TurnRoundTrip | src/main.cpp:500-506 | a quarter turn followed by the opposite quarter turn restores the offset |
| Geometry.TurnFourTimes | src/main.cpp:500-506 | four quarter turns in one direction restore the offset |
| Geometry.TurnInjective | src/main.cpp:503-507 | distinct offsets stay distinct under a quarter turn |
| Field.FindLanded | src/main.cpp:304-306 | the scan over the landed cubes is true exactly when some landed cube is at the position |
| Field.CheckCollision | src/main.cpp:300-309 | true exactly when some moved cube is outside x in [0,10), z in [0,10), below y = 0, or on a landed cube; no upper bound on y |
| Field.CollisionInPlace | src/main.cpp:294 | the test with no displacement is true exactly when the piece is not legal where it stands |
| Field.OutOfBoundsCollides | src/main.cpp:303 | a cube that would leave the walls or go below the floor always collides, whatever has landed |
| Field.EmptyFieldCollision | src/main.cpp:300-309 | on an empty field only the walls and the floor can block |
| Palette.NextMaterial | src/main.cpp:470 | the material index stays within the five presets and wraps from the last to the first |
| Palette.CycleReturns | src/main.cpp:470 | five presses of M return to the starting material |
| Piece.ShapeOf | src/main.cpp:77-85 | the drawn archetype has four distinct integer offsets with x in [-2,1], y in [-1,0] and z = 0 |
| Piece.Place | src/main.cpp:285-292 | a placed piece has one cube per archetype offset, every cube in the given material |
| Piece.PlaceRecoversShape | src/main.cpp:285-287 | each placed cube's offset from the spawn point is the corresponding archetype offset |
| Piece.Translate | src/main.cpp:486-487 | moving a piece keeps its size and materials and displaces every cube by exactly the move vector |
| Piece.Rotate | src/main.cpp:501-507 | turning a piece keeps its size, materials and heights; each cube's new offset from the centre is its old offset turned a quarter turn, at the same horizontal distance |
| Piece.Recolour | src/main.cpp:266-270 | recolouring keeps the size and every position and gives every cube the new material |
| Piece.PlaceShape | src/main.cpp:279-292 | a fresh piece has four distinct cubes, all inside the walls, at height 17 or 18 |
| Piece.TranslateDistinct | src/main.cpp:486-487 | moving a piece keeps its cubes distinct |
| Piece.TranslateTwice | src/main.cpp:492-493 | two successive moves equal one move by their sum |
| Piece.RotateDistinct | src/main.cpp:503-507 | rotating a piece keeps its cubes distinct |
| Piece.RotateFourTimes | src/main.cpp:500-507 | four turns of a piece in one direction about the same centre put every cube back, so four accepted presses of E (or of Q) restore the piece |
| Piece.RotateRoundTrip | src/main.cpp:500-511 | rotating by E and then by Q about the same centre puts every cube back |
| Piece.RotateKeepsHeights | src/main.cpp:503-507 | rotation about the vertical axis changes no cube's height |
| Piece.RecolourKeepsPlacement | src/main.cpp:264-270 | recolouring the piece changes neither its legality nor the distinctness of its cubes |
| Piece.CollisionIsMovedLegality | src/main.cpp:485 | the collision test for a move is exactly the illegality of the moved piece |
| Compaction.Layer | src/main.cpp:326-327 | the cubes counted at a height are at most the whole field, and there are none exactly when no cube is at that height |
| Compaction.ClearLayer | src/main.cpp:332-335 | one clear shrinks the field by exactly the number of cubes in the cleared layer |
| Compaction.ClearLayerReshapes | src/main.cpp:332-335 | after clearing layer y, each layer below y is unchanged, and each layer k at or above y holds the cubes of layer k+1 lowered by one |
| Compaction.ClearLayerKeepsBelow | src/main.cpp:332-336 | layers below the cleared one are untouched, so they stay not full; this keeps the pass's invariant that every layer below the one being examined is not full, while the y-- re-examines the cleared height itself |
| Compaction.ClearLayerOrigin | src/main.cpp:332-335 | every cube left after a clear is a cube from another layer, lowered by one if it was above the cleared layer |
| Compaction.ClearLayerGridOk | src/main.cpp:332-335 | a clear keeps the landed cubes inside the field and pairwise distinct |
| Compaction.LayerBound | src/main.cpp:325-329 | a layer of a well-formed field holds at most 100 cubes, so the test "at least 100" means "exactly 100" |
| Compaction.DistinctBelow | src/main.cpp:329 | pairwise distinct cells among 100 number at most 100, which underlies LayerBound |
| Compaction.ClearStep | src/main.cpp:329-336 | one clear inside the pass makes the field smaller, keeps the layers below not full, and on a well-formed field removes exactly 100 cubes and keeps it well formed |
| Compaction.ClearFrom | src/main.cpp:324-338 | after the pass no layer in [0,20) is full; on a well-formed field the result stays well formed and exactly 100 cubes go per cleared layer |
| Compaction.ClearFullLayers | src/main.cpp:324-338 | the whole pass from the floor leaves no full layer in [0,20) |
| Compaction.ClearFromNothingFull | src/main.cpp:324-338 | on a field with no full layer the pass changes nothing and clears nothing |
| Compaction.ClearIdempotent | src/main.cpp:324-338 | a second pass right after the first clears nothing |
| Compaction.ReachesCeiling | src/main.cpp:312-317 | true exactly when some cube of the piece is at height 14 or above |
| Compaction.Merge | src/main.cpp:311-339 | the lock ends the game exactly when a cube is at height 14 or above; then the field is the old field plus the piece, the score is unchanged and nothing is cleared; otherwise the score grows by 10 + 100 × layers cleared and no full layer remains |
| Compaction.StackGridOk | src/main.cpp:312-313 | appending a legal piece with distinct cubes keeps the field in bounds and pairwise distinct |
| Compaction.LayerMembers | src/main.cpp:326-327 | the cubes counted in a layer are cubes of the field at that height |
| Game.Spawn | src/main.cpp:277-298 | the new piece has 4 cubes at (5,18,5) plus the drawn archetype's offsets, all in the selected material; the game ends exactly when that placement is not legal |
| Game.SpawnOnEmptyField | src/main.cpp:277-298 | on an empty field a spawned piece always fits, so spawning never ends the game there |
| Game.Start | src/main.cpp:155 | the opening state satisfies the session invariant, with no landed cubes, score 0, neither flag set, material 0 (src/main.cpp:57), and as the piece the archetype roll % 7 placed at (5,18,5) in that material |
| Game.Delta | src/main.cpp:478-485 | each movement key moves one unit along exactly one axis, never up, and only Space moves vertically; so the vector is never zero and the length test always passes |
| Game.MovePiece | src/main.cpp:476-488 | a movement key moves all cubes and the centre by the unit vector exactly when not paused, not over and the moved piece is legal; otherwise nothing changes |
| Game.RotatePiece | src/main.cpp:500-511 | a rotation key replaces the piece by the rotated one only when running and the rotated piece is legal; otherwise nothing changes; the centre never moves |
| Game.DropToRest | src/main.cpp:490-494 | the drop terminates with the piece unable to move down; the result is the piece moved straight down, and it stays legal |
| Game.Gravity | src/main.cpp:158-167 | the fall step does nothing when paused or over; otherwise it moves down one unit if that is legal, or else it locks and then spawns only if the game is not over |
| Game.ResetGame | src/main.cpp:455-461 | from any state, reset gives an empty field, score 0, both flags clear, the same material, and the freshly spawned piece of archetype roll % 7 at (5,18,5), which is legal |
| Game.TogglePaused | src/main.cpp:463 | P flips the pause flag and changes nothing else |
| Game.CycleMaterialOf | src/main.cpp:469-474 | M advances the material index cyclically; the falling piece is recoloured only when neither paused nor over, and no cube moves |
| Game.Lock | src/main.cpp:311-339 | locking ends the game exactly when a cube is at height 14 or above, and then appends the piece and leaves the score; otherwise the field is the old field plus the piece after the clearing pass, the score grows by 10 plus 100 for each layer that pass cleared, and no full layer is left; the falling piece, the centre and the flags other than game over are kept |
| Game.LockAndSpawn | src/main.cpp:159-161 | after a lock that ends the game nothing more happens; otherwise the locked field and score are kept and the next piece is the archetype roll % 7 placed at (5,18,5), ending the game exactly when it does not fit |
| Game.Step | src/main.cpp:450-512 | one input: only M changes the material; only P and R change the pause flag; only the fall step, Enter and R change the field, the score or the game-over flag |
| Game.LockAndSpawnInv | src/main.cpp:159-161 | locking a legal piece and spawning keeps the session invariant, and the score grows by at least 10 unless the game ends |
| Game.StepInv | src/main.cpp:450-512 | every input keeps the invariant: landed cubes in bounds and distinct, a four-cube piece, a legal piece and no full layer while the game runs, and a score that is a non-negative multiple of 10 |
| Game.Run | src/main.cpp:157-167 | every state reached by a sequence of inputs satisfies the session invariant |
| Shape.TurnAgain | src/main.cpp:502-506 | a further E adds one quarter turn to an offset that has had n of them, and a Q adds three |
| Shape.SpawnShaped | src/main.cpp:279-292 | a freshly spawned piece is its archetype unturned about the centre (5,18,5), all in one material |
| Shape.TranslateShaped | src/main.cpp:486-487 | moving cubes and centre together keeps every offset from the centre, and the single material |
| Shape.RotateShaped | src/main.cpp:503-509 | turning the piece about its centre adds one quarter turn (E) or three (Q) to every offset, and keeps the single material |
| Shape.LockAndSpawnShaped | src/main.cpp:159-161 | after a lock and spawn the piece is still an archetype turned about its centre, in one material |
| Shape.HardDropShaped | src/main.cpp:490-496 | after Enter the piece is still an archetype turned about its centre, in one material |
| Shape.StartShaped | src/main.cpp:155 | the first piece of a game is an archetype turned about its centre, in one material |
| Shape.StepShaped | src/main.cpp:450-512 | after every input, each cube's offset from the centre is the offset of one archetype turned by the same number of quarter turns |
| Shape.StepOneMaterial | src/main.cpp:264-292 | after every input, the four cubes of the piece share one material |
| Shape.RunShaped | src/main.cpp:157-167 | along any run of inputs from a state that satisfies the session invariant, both piece invariants hold |
| Game.RotateThenBack | src/main.cpp:500-511 | an accepted rotation followed by the opposite key restores the session exactly |
| Game.PauseTwice | src/main.cpp:463 | pressing P twice changes nothing |
| Game.FrozenWhenPausedOrOver | src/main.cpp:476 | while paused or over, the fall step, the movement keys, Enter and the rotation keys do nothing, and M changes only the material index |
| Game.ScoreNeverDrops | src/main.cpp:322-330 | no input except reset lowers the score |
| Game.HardDropAtRest | src/main.cpp:490-496 | Enter on a piece that cannot move down gives the same result as the fall step |
| Game.HardDropAfterFall | src/main.cpp:490-494 | when the piece can move down, Enter gives the same result as one fall step followed by Enter, and the drop is one unit shorter |
| Game.HardDropIsRepeatedGravity | src/main.cpp:490-498 | a hard drop equals fall + 1 successive fall steps: it drops to rest, locks, and spawns only if the game is not over |
| Scenarios.DropOnEmptyField | src/main.cpp:490-494 | on an empty field a piece falls exactly as far as its lowest cube is high |
| Scenarios.LockLowOnEmptyField | src/main.cpp:311-338 | locking a low piece onto an empty field makes the field that piece and adds only the lock bonus |
| Scenarios.SpawnAboveLowField | src/main.cpp:294-297 | a new piece fits over a field whose cubes are all below height 17 |
| Scenarios.HardDropOnEmptyField | src/main.cpp:490-498 | a hard drop from spawn height onto an empty field leaves 4 landed cubes, adds 10 points, and does not end the game |
| Scenarios.FirstHardDrop | src/main.cpp:490-498 | the first hard drop of any game falls by the lowest cube's height, leaves 4 cubes and 10 points, and does not end the game |
| Scenarios.FullPlusOneClears | src/main.cpp:324-338 | with a full layer at height 5 and one cube at height 6, the pass clears one layer and leaves just that cube at height 5 |
| Scenarios.CompleteOneLayer | src/main.cpp:311-338 | locking that cube clears one layer and scores 10 + 100 |

## Left out

- Window, OpenGL context, shader loading, compiling and linking (src/main.cpp:106-154, 207-257): I/O and foreign library calls.
- Buffer setup and all drawing (src/main.cpp:169-193, 342-441): rendering only reads the state.
- Teardown of the GL objects and the window (src/main.cpp:195-202): resource release at exit.
- Camera keys J/L, Escape and the framebuffer callback (src/main.cpp:443-447, 453, 465-466): they do not touch the game state.
- Console output (`updateScoreDisplay` and every `cout`/`cerr`): the score is kept as data.
- The random number generator: its draw is the `roll` argument of each step.
- The clock (`glfwGetTime`, `lastFall`, `fallSpeed`): gravity is the `FallDue` event. Because of this, the model does not reset the fall timer on a hard drop (src/main.cpp:497).
- The floating-point material values (albedo, metallic, roughness): a material is its palette index.
- Key press versus key repeat. Every input is one discrete command. In the game, R, P, M, Q and E act only on a press. The movement keys and Enter also act on a key repeat (src/main.cpp:478-498 do not test the action), so holding Enter hard-drops piece after piece; each repeat is a further `HardDrop` input here.
- Floating-point positions and rounding: positions are integers. The `rotateY` map is an assumption, not derived from glm.
- Game.Step: requires a non-empty falling piece. The game always has a four-cube piece after the first spawn. With an empty piece the hard-drop loop would not terminate. The invariant `Game.Inv` keeps four cubes.
- Game.Inv: the score is an unbounded integer. In the game `score` is a C++ `int` (src/main.cpp:39). It grows by 10 per lock and 100 per layer (src/main.cpp:322, 330) with no cap, so past 2^31 − 1 it would overflow, which is undefined behaviour. The invariant's `score >= 0` holds only for unbounded integers.
- Game.ScoreNeverDrops: it holds for the unbounded score only. A 32-bit score could wrap past 2^31 − 1 (see Game.Inv above).
- Game.HardDropPiece: has no contract of its own. Its behaviour is stated by `Game.HardDropIsRepeatedGravity` and `Game.DropToRest`.

=== FILE: compaction.dfy ===
/** Locking a piece into the field, and the layer clear that follows.

    A layer is the horizontal cross-section at one height. After a lock the
    layers 0 .. Height - 1 are scanned upwards; a layer holding at least
    Width * Depth cubes is removed, everything above it drops by one, and the
    same height is looked at again before moving on.
 */
module Compaction {
  import opened Geometry
  import opened Field

  const LockBonus := 10
  const LayerBonus := 100

  /** The cubes of `g` at height `k`, in order. A layer is empty exactly
      when no cube of `g` is at that height. */
  function Layer(g: seq<Cube>, k: int): (r: seq<Cube>)
    ensures |r| <= |g|
    ensures |r| == 0 <==> forall i :: 0 <= i < |g| ==> g[i].pos.y != k
  {
    if |g| == 0 then []
    else (if g[0].pos.y == k then [g[0]] else []) + Layer(g[1..], k)
  }

  function LayerCount(g: seq<Cube>, k: int): nat {
    |Layer(g, k)|
  }

  /** The clearing test of the game: at least Width * Depth cubes. */
  predicate Full(g: seq<Cube>, k: int) {
    LayerCount(g, k) >= LayerSize
  }

  predicate NoFullLayer(g: seq<Cube>) {
    forall k :: 0 <= k < Height ==> !Full(g, k)
  }

  function Lower(c: Cube): Cube {
    c.(pos := c.pos.(y := c.pos.y - 1))
  }

  function LowerAll(s: seq<Cube>): (r: seq<Cube>) {
    seq(|s|, i requires 0 <= i < |s| => Lower(s[i]))
  }

  /** Where a cube that survives the clear of layer `y` ends up. */
  function Settle(c: Cube, y: int): Cube {
    if c.pos.y > y then Lower(c) else c
  }

  /** One clear: drop the cubes of layer `y`, lower every cube above it by
      one, leave the cubes below it alone. */
  function ClearLayer(g: seq<Cube>, y: int): (r: seq<Cube>)
    ensures |r| == |g| - LayerCount(g, y)
  {
    if |g| == 0 then []
    else (if g[0].pos.y == y then [] else [Settle(g[0], y)]) + ClearLayer(g[1..], y)
  }

  /** A layer holds cubes of `g`, all at height `k`. */
  lemma {:induction false} LayerMembers(g: seq<Cube>, k: int)
    ensures forall c :: c in Layer(g, k) ==> c in g && c.pos.y == k
  {
    if |g| != 0 {
      LayerMembers(g[1..], k);
      assert forall c :: c in g[1..] ==> c in g;
    }
  }

  lemma {:induction false} LayerAppend(a: seq<Cube>, b: seq<Cube>, k: int)
    ensures Layer(a + b, k) == Layer(a, k) + Layer(b, k)
  {
    if |a| == 0 {
      assert a + b == b;
    } else {
      var head: seq<Cube> := if a[0].pos.y == k then [a[0]] else [];
      assert (a + b)[0] == a[0];
      assert (a + b)[1..] == a[1..] + b;
      assert Layer(a + b, k) == head + Layer(a[1..] + b, k);
      LayerAppend(a[1..], b, k);
      assert Layer(a, k) == head + Layer(a[1..], k);
    }
  }

  lemma LowerAllAppend(a: seq<Cube>, b: seq<Cube>)
    ensures LowerAll(a + b) == LowerAll(a) + LowerAll(b)
  {
  }

  /** What one clear does to every layer: the layers below `y` are exactly
      as before, and layer `k >= y` is layer `k + 1` lowered by one. So the
      cleared layer's cubes are gone and nothing else is lost or moved
      sideways. */
  lemma {:induction false} ClearLayerReshapes(g: seq<Cube>, y: int, k: int)
    ensures Layer(ClearLayer(g, y), k) == if k < y then Layer(g, k) else LowerAll(Layer(g, k + 1))
  {
    if |g| != 0 {
      var c := g[0];
      var head := ClearHead(c, y);
      var rest := ClearLayer(g[1..], y);
      assert ClearLayer(g, y) == head + rest;
      LayerAppend(head, rest, k);
      ClearLayerReshapes(g[1..], y, k);
      ClearHeadLayer(c, y, k);
      if k < y {
        LayerUnfold(g, k);
      } else {
        LayerUnfold(g, k + 1);
        LowerAllAppend(LayerOfOne(c, k + 1), Layer(g[1..], k + 1));
      }
    }
  }

  /** What the clear of layer `y` keeps of a single cube. */
  function ClearHead(c: Cube, y: int): seq<Cube> {
    if c.pos.y == y then [] else [Settle(c, y)]
  }

  /** The layer at `k` of the one-cube field `[c]`. */
  function LayerOfOne(c: Cube, k: int): seq<Cube> {
    if c.pos.y == k then [c] else []
  }

  lemma LayerUnfold(g: seq<Cube>, k: int)
    requires |g| != 0
    ensures Layer(g, k) == LayerOfOne(g[0], k) + Layer(g[1..], k)
  {
  }

  /** One cube through a clear: below `y` its layer is unchanged, at or
      above `y` it is the cube of layer `k + 1`, lowered. */
  lemma ClearHeadLayer(c: Cube, y: int, k: int)
    ensures Layer(ClearHead(c, y), k) == if k < y then LayerOfOne(c, k) else LowerAll(LayerOfOne(c, k + 1))
  {
    if c.pos.y != y {
      assert Layer([Settle(c, y)], k) == LayerOfOne(Settle(c, y), k) + Layer([], k);
    }
  }

  /** The layers below a clear are untouched, so they stay not full. */
  lemma ClearLayerKeepsBelow(g: seq<Cube>, y: int)
    ensures forall k :: k < y ==> Layer(ClearLayer(g, y), k) == Layer(g, k)
    ensures forall k :: k < y && !Full(g, k) ==> !Full(ClearLayer(g, y), k)
  {
    forall k | k < y
      ensures Layer(ClearLayer(g, y), k) == Layer(g, k)
    {
      ClearLayerReshapes(g, y, k);
    }
  }

  lemma DistinctCons(a: Cube, t: seq<Cube>)
    ensures Distinct([a] + t) <==> Distinct(t) && forall c :: c in t ==> c.pos != a.pos
  {
    var s := [a] + t;
    assert forall i :: 0 <= i < |t| ==> s[i + 1] == t[i];
    if Distinct(t) && forall c :: c in t ==> c.pos != a.pos {
      forall i, j | 0 <= i < |s| && 0 <= j < |s| && i != j
        ensures s[i].pos != s[j].pos
      {
        if i == 0 {
          assert s[j] in t;
        } else if j == 0 {
          assert s[i] in t;
        } else {
          assert s[i] == t[i - 1] && s[j] == t[j - 1];
        }
      }
    }
    if Distinct(s) {
      forall c | c in t
        ensures c.pos != a.pos
      {
        var j :| 0 <= j < |t| && t[j] == c;
        assert s[0] == a && s[j + 1] == c;
        assert s[0].pos != s[j + 1].pos;
      }
    }
  }

  /** Every survivor of a clear is a cube of another layer, settled. */
  lemma {:induction false} ClearLayerOrigin(g: seq<Cube>, y: int, c: Cube)
    requires c in ClearLayer(g, y)
    ensures exists c0 :: c0 in g && c0.pos.y != y && c == Settle(c0, y)
  {
    if |g| != 0 {
      var head: seq<Cube> := if g[0].pos.y == y then [] else [Settle(g[0], y)];
      assert ClearLayer(g, y) == head + ClearLayer(g[1..], y);
      if c in head {
        assert g[0] in g;
      } else {
        ClearLayerOrigin(g[1..], y, c);
        var c0 :| c0 in g[1..] && c0.pos.y != y && c == Settle(c0, y);
        assert c0 in g;
      }
    }
  }

  /** A clear keeps the landed cubes inside the field and pairwise distinct. */
  lemma {:induction false} ClearLayerGridOk(g: seq<Cube>, y: nat)
    requires GridOk(g)
    ensures GridOk(ClearLayer(g, y))
  {
    if |g| != 0 {
      var rest := ClearLayer(g[1..], y);
      assert g == [g[0]] + g[1..];
      DistinctCons(g[0], g[1..]);
      assert forall c :: c in g[1..] ==> c in g;
      ClearLayerGridOk(g[1..], y);
      if g[0].pos.y != y {
        var s := Settle(g[0], y);
        forall c | c in rest
          ensures c.pos != s.pos
        {
          ClearLayerOrigin(g[1..], y, c);
        }
        DistinctCons(s, rest);
        assert ClearLayer(g, y) == [s] + rest;
        assert InBounds(s.pos);
        forall c | c in [s] + rest
          ensures InBounds(c.pos)
        {
          if c in rest {
            ClearLayerOrigin(g[1..], y, c);
          }
        }
      } else {
        assert ClearLayer(g, y) == rest;
      }
    }
  }

  /** Pairwise distinct numbers in [0, n) number at most n. */
  lemma {:induction false} DistinctBelow(s: seq<int>, n: nat)
    requires forall i :: 0 <= i < |s| ==> 0 <= s[i] < n
    requires forall i, j :: 0 <= i < j < |s| ==> s[i] != s[j]
    ensures |s| <= n
    decreases n
  {
    if |s| > 0 {
      var m := n - 1;
      assert 0 <= s[0] < n;
      if j :| 0 <= j < |s| && s[j] == m {
        var t := s[..j] + s[j + 1..];
        assert forall i :: 0 <= i < |t| ==> t[i] == (if i < j then s[i] else s[i + 1]);
        DistinctBelow(t, m);
      } else {
        DistinctBelow(s, m);
      }
    }
  }

  /** A layer of a well-formed grid is itself well formed. */
  lemma {:induction false} LayerGridOk(g: seq<Cube>, k: int)
    requires GridOk(g)
    ensures GridOk(Layer(g, k))
  {
    if |g| != 0 {
      assert g == [g[0]] + g[1..];
      DistinctCons(g[0], g[1..]);
      assert forall c :: c in g[1..] ==> c in g;
      LayerGridOk(g[1..], k);
      LayerMembers(g[1..], k);
      if g[0].pos.y == k {
        DistinctCons(g[0], Layer(g[1..], k));
        assert Layer(g, k) == [g[0]] + Layer(g[1..], k);
      } else {
        assert Layer(g, k) == Layer(g[1..], k);
      }
    }
  }

  /** No layer of a well-formed grid holds more than Width * Depth cubes, so
      the game's "at least" test for a full layer means "exactly". */
  lemma LayerBound(g: seq<Cube>, k: int)
    requires GridOk(g)
    ensures LayerCount(g, k) <= LayerSize
  {
    var l := Layer(g, k);
    LayerGridOk(g, k);
    LayerMembers(g, k);
    assert forall i :: 0 <= i < |l| ==> l[i] in l;
    var cells := seq(|l|, i requires 0 <= i < |l| => l[i].pos.x * Depth + l[i].pos.z);
    forall i, j | 0 <= i < j < |cells|
      ensures cells[i] != cells[j]
    {
      assert l[i].pos != l[j].pos;
    }
    DistinctBelow(cells, LayerSize);
  }

  /** The clearing pass from height `y` upwards, with the re-check after
      every clear. Layers below `y` are known not to be full. */
  datatype Cleared = Cleared(grid: seq<Cube>, layers: nat)

  function ClearFrom(g: seq<Cube>, y: nat): (r: Cleared)
    requires y <= Height
    requires forall k :: 0 <= k < y ==> !Full(g, k)
    ensures NoFullLayer(r.grid)
    ensures GridOk(g) ==> GridOk(r.grid) && |r.grid| + LayerSize * r.layers == |g|
    decreases |g|, Height - y
  {
    if y == Height then Cleared(g, 0)
    else if Full(g, y) then
      var g' := ClearLayer(g, y);
      ClearStep(g, y);
      var r := ClearFrom(g', y);
      Cleared(r.grid, r.layers + 1)
    else
      ClearFrom(g, y + 1)
  }

  /** One clear inside the pass: the field gets smaller, the layers below
      stay not full, and a well-formed field loses exactly one layer's worth
      of cubes and stays well formed. */
  lemma ClearStep(g: seq<Cube>, y: nat)
    requires y < Height && Full(g, y)
    requires forall k :: 0 <= k < y ==> !Full(g, k)
    ensures |ClearLayer(g, y)| < |g|
    ensures forall k :: 0 <= k < y ==> !Full(ClearLayer(g, y), k)
    ensures GridOk(g) ==> GridOk(ClearLayer(g, y)) && |ClearLayer(g, y)| + LayerSize == |g|
  {
    ClearLayerKeepsBelow(g, y);
    if GridOk(g) {
      ClearLayerGridOk(g, y);
      LayerBound(g, y);
    }
  }

  /** The whole clearing pass, starting from the floor. */
  function ClearFullLayers(g: seq<Cube>): (r: Cleared)
    ensures NoFullLayer(r.grid)
    ensures GridOk(g) ==> GridOk(r.grid) && |r.grid| + LayerSize * r.layers == |g|
  {
    ClearFrom(g, 0)
  }

  /** On a grid with no full layer the pass changes nothing. */
  lemma {:induction false} ClearFromNothingFull(g: seq<Cube>, y: nat)
    requires y <= Height
    requires NoFullLayer(g)
    ensures ClearFrom(g, y) == Cleared(g, 0)
    decreases Height - y
  {
    if y < Height {
      ClearFromNothingFull(g, y + 1);
    }
  }

  /** Clearing twice in a row: the second pass clears nothing. */
  lemma ClearIdempotent(g: seq<Cube>)
    ensures ClearFullLayers(ClearFullLayers(g).grid) == Cleared(ClearFullLayers(g).grid, 0)
  {
    ClearFromNothingFull(ClearFullLayers(g).grid, 0);
  }

  /** True when some cube of `piece` is at or above the game-over height. */
  function ReachesCeiling(piece: seq<Cube>): (r: bool)
    ensures r <==> exists i :: 0 <= i < |piece| && piece[i].pos.y >= GameOverHeight
  {
    if |piece| == 0 then false
    else
      assert forall i :: 1 <= i < |piece| ==> piece[i] == piece[1..][i - 1];
      piece[0].pos.y >= GameOverHeight || ReachesCeiling(piece[1..])
  }

  /** The result of locking a piece. */
  datatype Merged = Merged(grid: seq<Cube>, score: int, gameOver: bool, layers: nat)

  /** Locking a piece: its cubes are appended to the landed cubes. If one of
      them is at or above the game-over height the game ends there, with no
      score and no clearing; otherwise the lock scores, full layers are
      cleared and each cleared layer scores too. */
  function Merge(grid: seq<Cube>, piece: seq<Cube>, score: int, gameOver: bool): (r: Merged)
    ensures r.gameOver <==> gameOver || exists i :: 0 <= i < |piece| && piece[i].pos.y >= GameOverHeight
    ensures r.gameOver ==> r.grid == grid + piece && r.score == score && r.layers == 0
    ensures !r.gameOver ==> r.score == score + LockBonus + LayerBonus * r.layers && NoFullLayer(r.grid)
    ensures !r.gameOver ==> r.grid == ClearFullLayers(grid + piece).grid
    ensures GridOk(grid + piece) ==> GridOk(r.grid) && |r.grid| + LayerSize * r.layers == |grid| + |piece|
  {
    var stacked := grid + piece;
    if gameOver || ReachesCeiling(piece) then
      Merged(stacked, score, true, 0)
    else
      var c := ClearFullLayers(stacked);
      Merged(c.grid, score + LockBonus + LayerBonus * c.layers, false, c.layers)
  }

  /** Appending a legal piece with distinct cubes to a well-formed grid
      keeps it well formed. */
  lemma StackGridOk(grid: seq<Cube>, piece: seq<Cube>)
    requires GridOk(grid) && Distinct(piece) && Legal(grid, piece)
    ensures GridOk(grid + piece)
  {
    var s := grid + piece;
    forall i, j | 0 <= i < |s| && 0 <= j < |s| && i != j
      ensures s[i].pos != s[j].pos
    {
      if i < |grid| && j >= |grid| {
        assert !Occupied(grid, piece[j - |grid|].pos);
      } else if j < |grid| && i >= |grid| {
        assert !Occupied(grid, piece[i - |grid|].pos);
      }
    }
    assert forall i :: |grid| <= i < |s| ==> s[i] == piece[i - |grid|];
  }
}

=== FILE: field.dfy ===
/** The play field: its dimensions, the landed cubes, and the collision
    predicate that decides whether a candidate placement is legal. */
module Field {
  import opened Geometry

  const Width := 10
  const Height := 20
  const Depth := 10
  const GameOverHeight := 14

  /** Number of cells in one horizontal layer. */
  const LayerSize := Width * Depth

  /** A unit cube: a lattice position and the palette index of its material. */
  datatype Cube = Cube(pos: Pos, material: nat)

  /** Inside the walls and not below the floor; there is no ceiling. */
  predicate InBounds(p: Pos) {
    0 <= p.x < Width && 0 <= p.z < Depth && 0 <= p.y
  }

  /** Some landed cube sits at `p`. */
  predicate Occupied(grid: seq<Cube>, p: Pos) {
    exists j :: 0 <= j < |grid| && grid[j].pos == p
  }

  /** A cube may not be placed at `p`. */
  predicate Blocked(grid: seq<Cube>, p: Pos) {
    !InBounds(p) || Occupied(grid, p)
  }

  /** Every cube of `piece` may be where it is. */
  predicate Legal(grid: seq<Cube>, piece: seq<Cube>) {
    forall i :: 0 <= i < |piece| ==> !Blocked(grid, piece[i].pos)
  }

  /** No two cubes of `cubes` share a position. */
  predicate Distinct(cubes: seq<Cube>) {
    forall i, j :: 0 <= i < |cubes| && 0 <= j < |cubes| && i != j ==> cubes[i].pos != cubes[j].pos
  }

  /** The landed cubes are inside the field and pairwise distinct. */
  predicate GridOk(grid: seq<Cube>) {
    (forall i :: 0 <= i < |grid| ==> InBounds(grid[i].pos)) && Distinct(grid)
  }

  /** The inner scan of the collision test: walks the landed cubes in order
      and stops at the first one on `p`. */
  function FindLanded(grid: seq<Cube>, p: Pos): (r: bool)
    ensures r <==> Occupied(grid, p)
  {
    if |grid| == 0 then false
    else if grid[0].pos == p then true
    else
      var rest := FindLanded(grid[1..], p);
      assert Occupied(grid[1..], p) ==> Occupied(grid, p) by {
        if Occupied(grid[1..], p) {
          var j :| 0 <= j < |grid[1..]| && grid[1..][j].pos == p;
          assert grid[j + 1].pos == p;
        }
      }
      rest
  }

  /** The collision test: moves every cube of `piece` by `d` and reports
      whether one of them would leave the field, go below the floor or land
      on a landed cube. Cubes are checked in order; the first hit decides. */
  function CheckCollision(d: Pos, piece: seq<Cube>, grid: seq<Cube>): (r: bool)
    ensures r <==> exists i :: 0 <= i < |piece| && Blocked(grid, Add(piece[i].pos, d))
  {
    if |piece| == 0 then false
    else
      var next := Add(piece[0].pos, d);
      if !InBounds(next) || FindLanded(grid, next) then true
      else
        var rest := CheckCollision(d, piece[1..], grid);
        assert forall i :: 1 <= i < |piece| ==> piece[i] == piece[1..][i - 1];
        rest
  }

  /** The test with no displacement is exactly the legality of the piece
      where it stands; this is how spawning and rotation use it. */
  lemma CollisionInPlace(piece: seq<Cube>, grid: seq<Cube>)
    ensures CheckCollision(Zero, piece, grid) <==> !Legal(grid, piece)
  {
    assert forall i :: 0 <= i < |piece| ==> Add(piece[i].pos, Zero) == piece[i].pos;
  }

  /** A cube outside the walls, or below the floor, always collides,
      whatever the landed cubes are. */
  lemma OutOfBoundsCollides(d: Pos, piece: seq<Cube>, grid: seq<Cube>, i: nat)
    requires i < |piece| && !InBounds(Add(piece[i].pos, d))
    ensures CheckCollision(d, piece, grid)
  {
  }

  /** With no landed cubes, only the walls and the floor matter. */
  lemma EmptyFieldCollision(d: Pos, piece: seq<Cube>)
    ensures CheckCollision(d, piece, []) <==> exists i :: 0 <= i < |piece| && !InBounds(Add(piece[i].pos, d))
  {
  }
}

=== FILE: game.dfy ===
/** The game session: one immutable record of the whole game state and a
    pure step function per input.

    Inputs are the game keys, taken as discrete commands, and the "fall due"
    event of the main loop, which stands for the wall-clock test that the
    fall interval has elapsed. Wherever the game spawns a piece it draws a
    random number; that number is the `roll` argument of each step.
 */
module Game {
  import opened Geometry
  import opened Field
  import opened Palette
  import opened Piece
  import opened Compaction

  datatype Session = Session(
    grid: seq<Cube>,     // the landed cubes
    piece: seq<Cube>,    // the falling piece
    center: Pos,         // the falling piece's rotation centre
    paused: bool,
    gameOver: bool,
    score: int,
    material: nat        // index of the selected palette entry
  )

  /** The movement keys: A/Left, D/Right, W/Up, S/Down and Space. */
  datatype Direction = Left | Right | Forward | Back | SoftDrop

  /** The move vector of a movement key: one unit along exactly one axis. */
  function Delta(dir: Direction): (d: Pos)
    ensures d != Zero
    ensures Abs(d.x) + Abs(d.y) + Abs(d.z) == 1
    ensures d.y != 0 <==> dir == SoftDrop
    ensures d.y <= 0
  {
    match dir
    case Left => Pos(-1, 0, 0)
    case Right => Pos(1, 0, 0)
    case Forward => Pos(0, 0, -1)
    case Back => Pos(0, 0, 1)
    case SoftDrop => Down
  }

  /** R, P, M, the movement keys, Enter, and E (+90) / Q (-90). */
  datatype Command = Reset | TogglePause | CycleMaterial | Move(dir: Direction) | HardDrop | RotateBy(turn: Turn)

  datatype Event = Key(cmd: Command) | FallDue

  /** What the session keeps true between inputs. */
  predicate Inv(s: Session) {
    && |s.piece| == PieceSize
    && Distinct(s.piece)
    && GridOk(s.grid)
    && s.material < MaterialCount
    && s.score >= 0 && s.score % LockBonus == 0
    && (!s.gameOver ==> Legal(s.grid, s.piece) && NoFullLayer(s.grid))
  }

  /** A new piece of archetype `roll % 7` at the spawn point, in the selected
      material. The game ends at once if it does not fit. */
  function Spawn(s: Session, roll: nat): (r: Session)
    ensures r.center == SpawnCenter == Pos(5, 18, 5)
    ensures |r.piece| == PieceSize
    ensures forall i :: 0 <= i < PieceSize ==>
              r.piece[i].pos == Add(SpawnCenter, ShapeOf(roll)[i]) && r.piece[i].material == s.material
    ensures r.gameOver <==> s.gameOver || !Legal(s.grid, r.piece)
    ensures r.grid == s.grid && r.score == s.score && r.paused == s.paused && r.material == s.material
  {
    var piece := Place(ShapeOf(roll), s.material);
    CollisionInPlace(piece, s.grid);
    s.(piece := piece, center := SpawnCenter, gameOver := s.gameOver || CheckCollision(Zero, piece, s.grid))
  }

  /** On an empty field a spawned piece always fits. */
  lemma SpawnOnEmptyField(s: Session, roll: nat)
    requires s.grid == []
    ensures Spawn(s, roll).gameOver == s.gameOver
    ensures Legal([], Spawn(s, roll).piece)
    ensures Distinct(Spawn(s, roll).piece)
  {
    PlaceShape(roll, s.material);
  }

  /** The state the game starts in: nothing landed, score 0, first material,
      and a first piece spawned. */
  function Start(roll: nat): (r: Session)
    ensures Inv(r) && !r.gameOver && !r.paused && r.score == 0 && r.grid == []
    ensures r.material == 0 && r.center == SpawnCenter && r.piece == Place(ShapeOf(roll), 0)
  {
    var blank := Session([], [], Zero, false, false, 0, 0);
    SpawnOnEmptyField(blank, roll);
    Spawn(blank, roll)
  }

  /** Locks the falling piece into the field. The game ends exactly when a
      cube of the piece is at or above the game-over height; otherwise the
      score grows by the lock bonus plus a whole number of layer bonuses and
      no full layer is left. */
  function Lock(s: Session): (r: Session)
    ensures r.piece == s.piece && r.center == s.center && r.paused == s.paused && r.material == s.material
    ensures r.gameOver <==> s.gameOver || exists i :: 0 <= i < |s.piece| && s.piece[i].pos.y >= GameOverHeight
    ensures r.gameOver ==> r.grid == s.grid + s.piece && r.score == s.score
    ensures !r.gameOver ==> r.score >= s.score + LockBonus && (r.score - s.score - LockBonus) % LayerBonus == 0
    ensures !r.gameOver ==> NoFullLayer(r.grid)
    ensures !r.gameOver ==>
              var c := ClearFullLayers(s.grid + s.piece);
              r.grid == c.grid && r.score == s.score + LockBonus + LayerBonus * c.layers
    ensures GridOk(s.grid + s.piece) ==> GridOk(r.grid)
  {
    var m := Merge(s.grid, s.piece, s.score, s.gameOver);
    s.(grid := m.grid, score := m.score, gameOver := m.gameOver)
  }

  /** Locks, then spawns the next piece unless the lock ended the game. */
  function LockAndSpawn(s: Session, roll: nat): (r: Session)
    ensures Lock(s).gameOver ==> r == Lock(s)
    ensures !Lock(s).gameOver ==>
              && r.grid == Lock(s).grid && r.score == Lock(s).score
              && r.paused == s.paused && r.material == s.material
              && r.center == SpawnCenter && r.piece == Place(ShapeOf(roll), s.material)
              && (r.gameOver <==> !Legal(r.grid, r.piece))
  {
    var l := Lock(s);
    if l.gameOver then l else Spawn(l, roll)
  }

  /** A movement key: the piece and its centre move one unit if the moved
      piece fits, and nothing changes otherwise, or while paused or over. */
  function MovePiece(s: Session, dir: Direction): (r: Session)
    ensures var d := Delta(dir);
            var moved := s.(piece := Translate(s.piece, d), center := Add(s.center, d));
            (r == moved <==> !s.paused && !s.gameOver && Legal(s.grid, Translate(s.piece, d)))
            && (r == moved || r == s)
  {
    var d := Delta(dir);
    CollisionIsMovedLegality(d, s.piece, s.grid);
    if s.paused || s.gameOver || CheckCollision(d, s.piece, s.grid) then s
    else s.(piece := Translate(s.piece, d), center := Add(s.center, d))
  }

  /** A rotation key: every cube turned about the centre, kept only if the
      turned piece fits. The centre itself never moves. */
  function RotatePiece(s: Session, t: Turn): (r: Session)
    ensures var turned := Rotate(s.piece, s.center, t);
            (!s.paused && !s.gameOver && Legal(s.grid, turned) ==> r == s.(piece := turned))
            && (!(!s.paused && !s.gameOver && Legal(s.grid, turned)) ==> r == s)
    ensures r.center == s.center
  {
    var turned := Rotate(s.piece, s.center, t);
    CollisionInPlace(turned, s.grid);
    if s.paused || s.gameOver || CheckCollision(Zero, turned, s.grid) then s
    else s.(piece := turned)
  }

  /** Where a hard drop stops: the piece moved down `fall` units. */
  datatype Drop = Drop(piece: seq<Cube>, center: Pos, fall: nat)

  /** Moves the piece down one unit at a time until it cannot go further.
      Each step lowers every cube by one, and a cube below the floor always
      collides, so the height of the first cube bounds the number of steps. */
  function DropToRest(grid: seq<Cube>, piece: seq<Cube>, center: Pos): (r: Drop)
    requires |piece| > 0
    ensures CheckCollision(Down, r.piece, grid)
    ensures r.piece == Translate(piece, DownBy(r.fall)) && r.center == Add(center, DownBy(r.fall))
    ensures Legal(grid, piece) ==> Legal(grid, r.piece)
    decreases piece[0].pos.y
  {
    if CheckCollision(Down, piece, grid) then
      TranslateZero(piece);
      Drop(piece, center, 0)
    else
      var lower := Translate(piece, Down);
      CollisionIsMovedLegality(Down, piece, grid);
      var r := DropToRest(grid, lower, Add(center, Down));
      TranslateTwice(piece, Down, DownBy(r.fall));
      Drop(r.piece, r.center, r.fall + 1)
  }

  /** Enter: drop to rest, lock, and spawn unless the game ended. */
  function HardDropPiece(s: Session, roll: nat): (r: Session)
    requires |s.piece| > 0
  {
    if s.paused || s.gameOver then s
    else
      var d := DropToRest(s.grid, s.piece, s.center);
      LockAndSpawn(s.(piece := d.piece, center := d.center), roll)
  }

  /** The main loop's fall step: nothing while paused or over; otherwise one
      unit down if that fits, else lock and spawn. */
  function Gravity(s: Session, roll: nat): (r: Session)
    ensures s.paused || s.gameOver ==> r == s
    ensures !s.paused && !s.gameOver && Legal(s.grid, Translate(s.piece, Down)) ==>
              r == s.(piece := Translate(s.piece, Down), center := Add(s.center, Down))
    ensures !s.paused && !s.gameOver && !Legal(s.grid, Translate(s.piece, Down)) ==>
              r == LockAndSpawn(s, roll)
  {
    CollisionIsMovedLegality(Down, s.piece, s.grid);
    if s.paused || s.gameOver then s
    else if CheckCollision(Down, s.piece, s.grid) then LockAndSpawn(s, roll)
    else s.(piece := Translate(s.piece, Down), center := Add(s.center, Down))
  }

  /** R: in any state, empty the field, zero the score, clear both flags and
      spawn a piece, which always fits. */
  function ResetGame(s: Session, roll: nat): (r: Session)
    ensures r.grid == [] && r.score == 0 && !r.gameOver && !r.paused
    ensures r.center == SpawnCenter && r.piece == Place(ShapeOf(roll), s.material)
    ensures Legal(r.grid, r.piece) && |r.piece| == PieceSize
    ensures r.material == s.material
  {
    var cleared := Session([], s.piece, s.center, false, false, 0, s.material);
    SpawnOnEmptyField(cleared, roll);
    Spawn(cleared, roll)
  }

  /** P: flips the pause flag, even after the game is over. */
  function TogglePaused(s: Session): (r: Session)
    ensures r.paused == !s.paused
    ensures r.(paused := s.paused) == s
  {
    s.(paused := !s.paused)
  }

  /** M: selects the next material; the falling piece takes it on only while
      the game is running. Landed cubes keep theirs. */
  function CycleMaterialOf(s: Session): (r: Session)
    ensures r.material == NextMaterial(s.material)
    ensures r.grid == s.grid && r.center == s.center && r.score == s.score
    ensures r.paused == s.paused && r.gameOver == s.gameOver
    ensures |r.piece| == |s.piece|
    ensures forall i :: 0 <= i < |s.piece| ==>
              r.piece[i].pos == s.piece[i].pos
              && r.piece[i].material == (if s.paused || s.gameOver then s.piece[i].material else r.material)
  {
    var m := NextMaterial(s.material);
    if !s.gameOver && !s.paused then s.(material := m, piece := Recolour(s.piece, m))
    else s.(material := m)
  }

  /** One input. `roll` is the random draw used if a piece is spawned. */
  function Step(s: Session, e: Event, roll: nat): (r: Session)
    requires |s.piece| > 0
    ensures r.material != s.material ==> e == Key(CycleMaterial)
    ensures r.paused != s.paused ==> e == Key(TogglePause) || e == Key(Reset)
    ensures r.grid != s.grid || r.score != s.score || r.gameOver != s.gameOver ==>
              e == FallDue || e == Key(HardDrop) || e == Key(Reset)
  {
    match e
    case FallDue => Gravity(s, roll)
    case Key(cmd) =>
      match cmd
      case Reset => ResetGame(s, roll)
      case TogglePause => TogglePaused(s)
      case CycleMaterial => CycleMaterialOf(s)
      case Move(dir) => MovePiece(s, dir)
      case HardDrop => HardDropPiece(s, roll)
      case RotateBy(t) => RotatePiece(s, t)
  }

  lemma ScoreStep(score: int, layers: nat)
    requires score >= 0 && score % LockBonus == 0
    ensures var n := score + LockBonus + LayerBonus * layers; n >= score + LockBonus && n % LockBonus == 0
  {
    assert LockBonus + LayerBonus * layers == LockBonus * (1 + 10 * layers);
  }

  /** Locking a legal piece and spawning the next keeps the invariant. */
  lemma LockAndSpawnInv(s: Session, roll: nat)
    requires Inv(s) && !s.gameOver
    ensures Inv(LockAndSpawn(s, roll))
    ensures LockAndSpawn(s, roll).score >= s.score + LockBonus || LockAndSpawn(s, roll).gameOver
  {
    StackGridOk(s.grid, s.piece);
    var l := Lock(s);
    assert GridOk(l.grid);
    if !l.gameOver {
      var m := Merge(s.grid, s.piece, s.score, s.gameOver);
      ScoreStep(s.score, m.layers);
      assert NoFullLayer(l.grid) && l.score >= s.score + LockBonus && l.score % LockBonus == 0;
      PlaceShape(roll, s.material);
      var r := Spawn(l, roll);
      assert r.grid == l.grid && r.score == l.score && r.material == l.material;
      assert Distinct(r.piece);
    }
  }

  /** Every input keeps the invariant. */
  lemma StepInv(s: Session, e: Event, roll: nat)
    requires Inv(s)
    ensures Inv(Step(s, e, roll))
  {
    match e
    case FallDue =>
      if !s.paused && !s.gameOver {
        CollisionIsMovedLegality(Down, s.piece, s.grid);
        if CheckCollision(Down, s.piece, s.grid) {
          LockAndSpawnInv(s, roll);
        } else {
          TranslateDistinct(s.piece, Down);
        }
      }
    case Key(cmd) =>
      match cmd
      case Reset =>
        var cleared := Session([], s.piece, s.center, false, false, 0, s.material);
        SpawnOnEmptyField(cleared, roll);
      case TogglePause =>
      case CycleMaterial =>
        RecolourKeepsPlacement(s.grid, s.piece, NextMaterial(s.material));
      case Move(dir) =>
        TranslateDistinct(s.piece, Delta(dir));
      case HardDrop =>
        if !s.paused && !s.gameOver {
          var d := DropToRest(s.grid, s.piece, s.center);
          TranslateDistinct(s.piece, DownBy(d.fall));
          LockAndSpawnInv(s.(piece := d.piece, center := d.center), roll);
        }
      case RotateBy(t) =>
        RotateDistinct(s.piece, s.center, t);
  }

  datatype Input = Input(event: Event, roll: nat)

  /** A run of inputs from a state satisfying the invariant; every state
      along the way satisfies it too. */
  function Run(s: Session, inputs: seq<Input>): (r: Session)
    requires Inv(s)
    ensures Inv(r)
    decreases |inputs|
  {
    if |inputs| == 0 then s
    else
      StepInv(s, inputs[0].event, inputs[0].roll);
      Run(Step(s, inputs[0].event, inputs[0].roll), inputs[1..])
  }

  /** A quarter turn that was accepted can always be undone by the opposite
      key, and the two together change nothing. */
  lemma RotateThenBack(s: Session, t: Turn, roll1: nat, roll2: nat)
    requires Inv(s) && !s.paused && !s.gameOver
    requires Legal(s.grid, Rotate(s.piece, s.center, t))
    ensures Step(Step(s, Key(RotateBy(t)), roll1), Key(RotateBy(t.Opposite())), roll2) == s
  {
    var s1 := Step(s, Key(RotateBy(t)), roll1);
    assert s1 == s.(piece := Rotate(s.piece, s.center, t));
    RotateRoundTrip(s.piece, s.center, t);
    assert Rotate(s1.piece, s1.center, t.Opposite()) == s.piece;
  }

  /** Pressing P twice changes nothing. */
  lemma PauseTwice(s: Session, roll1: nat, roll2: nat)
    requires |s.piece| > 0
    ensures Step(Step(s, Key(TogglePause), roll1), Key(TogglePause), roll2) == s
  {
  }

  /** While paused or after the game is over, the fall step, the movement
      keys, Enter and the rotation keys change nothing, and M changes only
      the selected material. */
  lemma FrozenWhenPausedOrOver(s: Session, e: Event, roll: nat)
    requires |s.piece| > 0 && (s.paused || s.gameOver)
    ensures e.Key? && e.cmd.CycleMaterial? ==> Step(s, e, roll) == s.(material := NextMaterial(s.material))
    ensures !(e.Key? && (e.cmd.Reset? || e.cmd.TogglePause? || e.cmd.CycleMaterial?)) ==> Step(s, e, roll) == s
  {
  }

  /** The score never goes down except on reset, and a lock that does not end
      the game adds at least the lock bonus. */
  lemma ScoreNeverDrops(s: Session, e: Event, roll: nat)
    requires Inv(s)
    requires e != Key(Reset)
    ensures Step(s, e, roll).score >= s.score
  {
    match e
    case FallDue =>
      if !s.paused && !s.gameOver && CheckCollision(Down, s.piece, s.grid) {
        LockAndSpawnInv(s, roll);
      }
    case Key(cmd) =>
      if cmd.HardDrop? && !s.paused && !s.gameOver {
        var d := DropToRest(s.grid, s.piece, s.center);
        TranslateDistinct(s.piece, DownBy(d.fall));
        LockAndSpawnInv(s.(piece := d.piece, center := d.center), roll);
      }
  }

  /** The fall step applied `n` times; only a step that locks uses the roll. */
  function GravityTimes(s: Session, n: nat, roll: nat): Session
    decreases n
  {
    if n == 0 then s else GravityTimes(Gravity(s, roll), n - 1, roll)
  }

  lemma GravityTimesFirst(s: Session, n: nat, roll: nat)
    ensures GravityTimes(s, n + 1, roll) == GravityTimes(Gravity(s, roll), n, roll)
  {
  }

  /** A piece that cannot move down is locked where it is by Enter, just as
      by the fall step. */
  lemma HardDropAtRest(s: Session, roll: nat)
    requires |s.piece| > 0 && !s.paused && !s.gameOver
    requires CheckCollision(Down, s.piece, s.grid)
    ensures DropToRest(s.grid, s.piece, s.center).fall == 0
    ensures HardDropPiece(s, roll) == Gravity(s, roll)
  {
    assert s.(piece := s.piece, center := s.center) == s;
  }

  /** A piece that can move down: Enter gives the same result as one fall
      step followed by Enter, and one unit less is left to fall. */
  lemma HardDropAfterFall(s: Session, roll: nat)
    requires |s.piece| > 0 && !s.paused && !s.gameOver
    requires !CheckCollision(Down, s.piece, s.grid)
    ensures var s1 := Gravity(s, roll);
            && |s1.piece| > 0 && !s1.paused && !s1.gameOver
            && s1.piece[0].pos.y < s.piece[0].pos.y
            && DropToRest(s.grid, s.piece, s.center).fall == DropToRest(s1.grid, s1.piece, s1.center).fall + 1
            && HardDropPiece(s, roll) == HardDropPiece(s1, roll)
  {
    CollisionIsMovedLegality(Down, s.piece, s.grid);
    var s1 := s.(piece := Translate(s.piece, Down), center := Add(s.center, Down));
    assert Gravity(s, roll) == s1;
    var d1 := DropToRest(s1.grid, s1.piece, s1.center);
    assert s1.(piece := d1.piece, center := d1.center) == s.(piece := d1.piece, center := d1.center);
  }

  /** A hard drop is the same as letting the piece fall, step by step, until
      the step that locks it: `fall + 1` fall steps in a row. */
  lemma {:induction false} HardDropIsRepeatedGravity(s: Session, roll: nat)
    requires |s.piece| > 0 && !s.paused && !s.gameOver
    ensures HardDropPiece(s, roll) == GravityTimes(s, DropToRest(s.grid, s.piece, s.center).fall + 1, roll)
    decreases s.piece[0].pos.y
  {
    if CheckCollision(Down, s.piece, s.grid) {
      HardDropAtRest(s, roll);
      assert GravityTimes(s, 1, roll) == GravityTimes(Gravity(s, roll), 0, roll);
    } else {
      HardDropAfterFall(s, roll);
      var s1 := Gravity(s, roll);
      var n := DropToRest(s1.grid, s1.piece, s1.center).fall + 1;
      HardDropIsRepeatedGravity(s1, roll);
      GravityTimesFirst(s, n, roll);
    }
  }

}

=== FILE: geometry.dfy ===
/** Integer lattice geometry of the play field.

    Every cube of the game sits on an integer lattice point: the spawn centre,
    the archetype offsets and every translation are integral, and rotated
    offsets are rounded back onto the lattice. Positions are therefore
    integer triples here, and the `round(...)` calls of the game are the
    identity on them.
 */
module Geometry {

  /** A lattice position; x and z are horizontal, y is the height. */
  datatype Pos = Pos(x: int, y: int, z: int)

  function Add(p: Pos, d: Pos): Pos {
    Pos(p.x + d.x, p.y + d.y, p.z + d.z)
  }

  function Sub(p: Pos, q: Pos): Pos {
    Pos(p.x - q.x, p.y - q.y, p.z - q.z)
  }

  /** Squared horizontal distance between two positions. */
  function HorizontalDistanceSq(p: Pos, c: Pos): int {
    (p.x - c.x) * (p.x - c.x) + (p.z - c.z) * (p.z - c.z)
  }

  const Zero := Pos(0, 0, 0)

  function Abs(n: int): nat {
    if n < 0 then -n else n
  }

  /** One unit down: gravity, soft drop and every hard-drop step. */
  const Down := Pos(0, -1, 0)

  /** `n` units down. */
  function DownBy(n: nat): Pos {
    Pos(0, -(n as int), 0)
  }

  /** A quarter turn about the vertical axis. */
  datatype Turn = Plus90 | Minus90 {
    function Opposite(): Turn {
      if Plus90? then Minus90 else Plus90
    }
  }

  /** glm's rotateY of an offset by +90 or -90 degrees, rounded to the
      lattice. With rotateY's usual convention, +90 degrees sends (x, y, z)
      to (z, y, -x) and -90 degrees sends it to (-z, y, x); after rounding
      these are exact, which is the integer map assumed here.

      The contract pins the map down: the height is kept, the horizontal
      part keeps its length and ends up perpendicular to where it started,
      and the sign of the cross product fixes the direction of the turn. */
  function TurnOffset(t: Turn, v: Pos): (r: Pos)
    ensures r.y == v.y
    ensures HorizontalDistanceSq(r, Zero) == HorizontalDistanceSq(v, Zero)
    ensures r.x * v.x + r.z * v.z == 0
    ensures v.x * r.z - v.z * r.x == (if t == Plus90 then -1 else 1) * HorizontalDistanceSq(v, Zero)
  {
    match t
    case Plus90 => Pos(v.z, v.y, -v.x)
    case Minus90 => Pos(-v.z, v.y, v.x)
  }

  /** A quarter turn is undone by the opposite quarter turn. */
  lemma TurnRoundTrip(t: Turn, v: Pos)
    ensures TurnOffset(t.Opposite(), TurnOffset(t, v)) == v
  {
  }

  /** Four quarter turns in the same direction are the identity. */
  lemma TurnFourTimes(t: Turn, v: Pos)
    ensures TurnOffset(t, TurnOffset(t, TurnOffset(t, TurnOffset(t, v)))) == v
  {
  }

  /** Distinct offsets stay distinct under a quarter turn. */
  lemma TurnInjective(t: Turn, u: Pos, v: Pos)
    ensures TurnOffset(t, u) == TurnOffset(t, v) ==> u == v
  {
    TurnRoundTrip(t, u);
    TurnRoundTrip(t, v);
  }
}

=== FILE: palette.dfy ===
/** The material palette: five presets selected by a cyclic index. Only the
    index matters to the game; the colour and reflectance values are for the
    renderer and are not modelled. */
module Palette {

  const Names: seq<string> := ["Plastic", "Gold", "Jade", "Copper", "Rubber"]

  const MaterialCount := |Names|

  /** The index after `i`, wrapping after the last preset. */
  function NextMaterial(i: nat): (r: nat)
    ensures r < MaterialCount
    ensures i < MaterialCount - 1 ==> r == i + 1
    ensures i == MaterialCount - 1 ==> r == 0
  {
    (i + 1) % MaterialCount
  }

  /** Cycling through the whole palette comes back to the start. */
  lemma CycleReturns(i: nat)
    requires i < MaterialCount
    ensures NextMaterial(NextMaterial(NextMaterial(NextMaterial(NextMaterial(i))))) == i
  {
  }
}

=== FILE: piece.dfy ===
/** The falling piece: the seven archetypes, placement at the spawn point,
    and whole-piece translation, rotation and recolouring. */
module Piece {
  import opened Geometry
  import opened Field

  /** The seven archetypes, four offsets each, in the game's table order. */
  const Shapes: seq<seq<Pos>> := [
    [Pos(0, 0, 0), Pos(1, 0, 0), Pos(-1, 0, 0), Pos(-2, 0, 0)],
    [Pos(0, 0, 0), Pos(-1, 0, 0), Pos(1, 0, 0), Pos(1, -1, 0)],
    [Pos(0, 0, 0), Pos(-1, 0, 0), Pos(1, 0, 0), Pos(-1, -1, 0)],
    [Pos(0, 0, 0), Pos(1, 0, 0), Pos(-1, 0, 0), Pos(0, -1, 0)],
    [Pos(0, 0, 0), Pos(0, -1, 0), Pos(-1, -1, 0), Pos(1, 0, 0)],
    [Pos(0, 0, 0), Pos(0, -1, 0), Pos(1, -1, 0), Pos(-1, 0, 0)],
    [Pos(0, 0, 0), Pos(1, 0, 0), Pos(0, -1, 0), Pos(1, -1, 0)]
  ]

  const PieceSize := 4

  /** The spawn point: the horizontal centre of the field, two below the
      nominal height (floor(10 / 2), 20 - 2, floor(10 / 2)). */
  const SpawnCenter := Pos(Width / 2, Height - 2, Depth / 2)

  /** The archetype picked by a random draw `roll`, as `roll % 7`. */
  function ShapeOf(roll: nat): (shape: seq<Pos>)
    ensures |shape| == PieceSize
    ensures forall i :: 0 <= i < PieceSize ==> -2 <= shape[i].x <= 1 && -1 <= shape[i].y <= 0 && shape[i].z == 0
    ensures forall i, j :: 0 <= i < PieceSize && 0 <= j < PieceSize && i != j ==> shape[i] != shape[j]
  {
    Shapes[roll % |Shapes|]
  }

  /** The cubes of a freshly spawned piece: spawn point plus each offset,
      all in one material. */
  function Place(shape: seq<Pos>, material: nat): (piece: seq<Cube>)
    ensures |piece| == |shape|
    ensures forall i :: 0 <= i < |shape| ==> piece[i].material == material
  {
    seq(|shape|, i requires 0 <= i < |shape| => Cube(Add(SpawnCenter, shape[i]), material))
  }

  /** The archetype can be read back from a placed piece: each cube's offset
      from the spawn point is the corresponding archetype offset. */
  lemma PlaceRecoversShape(shape: seq<Pos>, material: nat)
    ensures forall i :: 0 <= i < |shape| ==> Sub(Place(shape, material)[i].pos, SpawnCenter) == shape[i]
  {
  }

  function MoveCube(c: Cube, d: Pos): Cube {
    c.(pos := Add(c.pos, d))
  }

  /** Every cube moved by `d`. */
  function Translate(piece: seq<Cube>, d: Pos): (r: seq<Cube>)
    ensures |r| == |piece|
    ensures forall i :: 0 <= i < |piece| ==>
              Sub(r[i].pos, piece[i].pos) == d && r[i].material == piece[i].material
  {
    seq(|piece|, i requires 0 <= i < |piece| => MoveCube(piece[i], d))
  }

  /** Every cube's offset from `center` turned by `t` and re-added. */
  function Rotate(piece: seq<Cube>, center: Pos, t: Turn): (r: seq<Cube>)
    ensures |r| == |piece|
    ensures forall i :: 0 <= i < |piece| ==>
              && r[i].material == piece[i].material
              && r[i].pos.y == piece[i].pos.y
              && HorizontalDistanceSq(r[i].pos, center) == HorizontalDistanceSq(piece[i].pos, center)
    ensures forall i :: 0 <= i < |piece| ==> Sub(r[i].pos, center) == TurnOffset(t, Sub(piece[i].pos, center))
  {
    seq(|piece|, i requires 0 <= i < |piece| =>
      piece[i].(pos := Add(center, TurnOffset(t, Sub(piece[i].pos, center)))))
  }

  /** Every cube given material `m`; positions stay. */
  function Recolour(piece: seq<Cube>, m: nat): (r: seq<Cube>)
    ensures |r| == |piece|
    ensures forall i :: 0 <= i < |piece| ==> r[i].pos == piece[i].pos && r[i].material == m
  {
    seq(|piece|, i requires 0 <= i < |piece| => piece[i].(material := m))
  }

  /** A fresh piece has four cubes at distinct positions, every one inside
      the walls, at height 17 or 18. */
  lemma PlaceShape(roll: nat, material: nat)
    ensures |Place(ShapeOf(roll), material)| == PieceSize
    ensures Distinct(Place(ShapeOf(roll), material))
    ensures forall i :: 0 <= i < PieceSize ==>
              var p := Place(ShapeOf(roll), material)[i].pos;
              InBounds(p) && Height - 3 <= p.y <= Height - 2
  {
  }

  /** Moving a piece keeps its cubes distinct. */
  lemma TranslateDistinct(piece: seq<Cube>, d: Pos)
    requires Distinct(piece)
    ensures Distinct(Translate(piece, d))
  {
  }

  /** Two moves add up. */
  lemma TranslateTwice(piece: seq<Cube>, d: Pos, e: Pos)
    ensures Translate(Translate(piece, d), e) == Translate(piece, Add(d, e))
  {
    assert forall i :: 0 <= i < |piece| ==> Translate(Translate(piece, d), e)[i] == Translate(piece, Add(d, e))[i];
  }

  /** Turning a piece keeps its cubes distinct. */
  lemma RotateDistinct(piece: seq<Cube>, center: Pos, t: Turn)
    requires Distinct(piece)
    ensures Distinct(Rotate(piece, center, t))
  {
    var r := Rotate(piece, center, t);
    forall i, j | 0 <= i < |r| && 0 <= j < |r| && i != j
      ensures r[i].pos != r[j].pos
    {
      TurnInjective(t, Sub(piece[i].pos, center), Sub(piece[j].pos, center));
    }
  }

  /** A quarter turn followed by the opposite quarter turn about the same
      centre puts every cube back where it was. */
  lemma RotateRoundTrip(piece: seq<Cube>, center: Pos, t: Turn)
    ensures Rotate(Rotate(piece, center, t), center, t.Opposite()) == piece
  {
    var r := Rotate(Rotate(piece, center, t), center, t.Opposite());
    forall i | 0 <= i < |piece|
      ensures r[i] == piece[i]
    {
      TurnRoundTrip(t, Sub(piece[i].pos, center));
    }
  }

  /** Four quarter turns in one direction about the same centre put every
      cube back where it was. */
  lemma RotateFourTimes(piece: seq<Cube>, center: Pos, t: Turn)
    ensures Rotate(Rotate(Rotate(Rotate(piece, center, t), center, t), center, t), center, t) == piece
  {
    var r := Rotate(Rotate(Rotate(Rotate(piece, center, t), center, t), center, t), center, t);
    forall i | 0 <= i < |piece|
      ensures r[i] == piece[i]
    {
      TurnFourTimes(t, Sub(piece[i].pos, center));
    }
  }

  /** Rotation about the vertical axis keeps every cube's height. */
  lemma RotateKeepsHeights(piece: seq<Cube>, center: Pos, t: Turn)
    ensures |Rotate(piece, center, t)| == |piece|
    ensures forall i :: 0 <= i < |piece| ==> Rotate(piece, center, t)[i].pos.y == piece[i].pos.y
  {
  }

  /** Recolouring moves nothing, so legality and distinctness carry over. */
  lemma RecolourKeepsPlacement(grid: seq<Cube>, piece: seq<Cube>, m: nat)
    ensures Legal(grid, Recolour(piece, m)) <==> Legal(grid, piece)
    ensures Distinct(Recolour(piece, m)) <==> Distinct(piece)
  {
    var r := Recolour(piece, m);
    assert forall i :: 0 <= i < |piece| ==> r[i].pos == piece[i].pos;
  }

  /** Moving by nothing leaves a piece as it is. */
  lemma TranslateZero(piece: seq<Cube>)
    ensures Translate(piece, Zero) == piece
  {
    assert forall i :: 0 <= i < |piece| ==> Translate(piece, Zero)[i] == piece[i];
  }

  /** The collision test for a move by `d` says exactly that the moved
      piece would not be legal. */
  lemma CollisionIsMovedLegality(d: Pos, piece: seq<Cube>, grid: seq<Cube>)
    ensures CheckCollision(d, piece, grid) <==> !Legal(grid, Translate(piece, d))
  {
    assert forall i :: 0 <= i < |piece| ==> Translate(piece, d)[i].pos == Add(piece[i].pos, d);
  }
}

=== FILE: scenarios.dfy ===
/** Two worked situations of the game, proved for every choice of the free
    inputs: the first hard drop of a game, and a lock that completes a
    layer. */
module Scenarios {
  import opened Geometry
  import opened Field
  import opened Piece
  import opened Compaction
  import opened Game

  /** A grid with fewer cubes than a layer holds has no full layer. */
  lemma SmallGridNothingFull(g: seq<Cube>)
    requires |g| < LayerSize
    ensures NoFullLayer(g)
    ensures ClearFullLayers(g) == Cleared(g, 0)
  {
    ClearFromNothingFull(g, 0);
  }

  /** On an empty field a legal piece falls exactly as far as its lowest
      cube is high. */
  lemma DropOnEmptyField(piece: seq<Cube>, center: Pos)
    requires |piece| > 0 && Legal([], piece)
    ensures var fall := DropToRest([], piece, center).fall;
            && (exists i :: 0 <= i < |piece| && piece[i].pos.y == fall)
            && (forall i :: 0 <= i < |piece| ==> piece[i].pos.y >= fall)
  {
    var d := DropToRest([], piece, center);
    var landed := d.piece;
    assert forall i :: 0 <= i < |piece| ==> landed[i].pos == Add(piece[i].pos, DownBy(d.fall));
    EmptyFieldCollision(Down, landed);
    var i :| 0 <= i < |piece| && !InBounds(Add(landed[i].pos, Down));
    assert InBounds(piece[i].pos) && InBounds(landed[i].pos);
    assert piece[i].pos.y == d.fall;
  }

  /** Locking a piece that stays below the game-over height onto an empty
      field: the field becomes the piece, and only the lock bonus scores. */
  lemma LockLowOnEmptyField(s: Session)
    requires s.grid == [] && !s.gameOver && |s.piece| < LayerSize
    requires forall i :: 0 <= i < |s.piece| ==> s.piece[i].pos.y < GameOverHeight
    ensures Lock(s) == s.(grid := s.piece, score := s.score + LockBonus)
  {
    assert !ReachesCeiling(s.piece);
    assert [] + s.piece == s.piece;
    SmallGridNothingFull(s.piece);
  }

  /** A spawned piece fits above a field whose cubes are all below its
      lowest spawn height. */
  lemma SpawnAboveLowField(s: Session, roll: nat)
    requires !s.gameOver
    requires forall k :: 0 <= k < |s.grid| ==> s.grid[k].pos.y < Height - 3
    ensures !Spawn(s, roll).gameOver
  {
    var r := Spawn(s, roll);
    PlaceShape(roll, s.material);
    forall j | 0 <= j < PieceSize
      ensures !Blocked(s.grid, r.piece[j].pos)
    {
      assert r.piece[j].pos.y >= Height - 3;
    }
  }

  /** A hard drop onto an empty field of a piece at the spawn heights:
      the lock scores only the lock bonus, the field becomes that piece,
      and the next piece fits. */
  lemma HardDropOnEmptyField(s: Session, roll: nat)
    requires s.grid == [] && !s.paused && !s.gameOver
    requires |s.piece| == PieceSize && Legal([], s.piece)
    requires forall i :: 0 <= i < PieceSize ==> Height - 3 <= s.piece[i].pos.y
    requires forall i :: 0 <= i < PieceSize ==> s.piece[i].pos.y <= Height - 2
    ensures var r := HardDropPiece(s, roll);
            |r.grid| == PieceSize && r.score == s.score + LockBonus && !r.gameOver
  {
    DropOnEmptyField(s.piece, s.center);
    var d := DropToRest(s.grid, s.piece, s.center);
    assert d.fall >= Height - 3;
    var landed := s.(piece := d.piece, center := d.center);
    assert forall i :: 0 <= i < PieceSize ==> landed.piece[i].pos.y == s.piece[i].pos.y - d.fall;
    LockLowOnEmptyField(landed);
    var l := Lock(landed);
    SpawnAboveLowField(l, roll);
  }

  /** The game's first piece: on an empty field, at height 17 or 18. */
  lemma StartPiece(roll: nat)
    ensures var s := Start(roll);
            && s.grid == [] && !s.paused && !s.gameOver && s.score == 0
            && |s.piece| == PieceSize && Legal([], s.piece)
            && forall i :: 0 <= i < PieceSize ==> Height - 3 <= s.piece[i].pos.y <= Height - 2
  {
    var s := Start(roll);
    forall i | 0 <= i < PieceSize
      ensures Height - 3 <= s.piece[i].pos.y <= Height - 2
    {
      assert s.piece[i].pos == Add(SpawnCenter, ShapeOf(roll)[i]);
    }
  }

  /** The first hard drop of a game: the piece falls exactly as far as its
      lowest cube is high, the lock scores the lock bonus and clears
      nothing, the field holds just its four cubes, and the next piece fits. */
  lemma FirstHardDrop(roll1: nat, roll2: nat)
    ensures var s := Start(roll1);
            var fall := DropToRest(s.grid, s.piece, s.center).fall;
            && (exists i :: 0 <= i < PieceSize && s.piece[i].pos.y == fall)
            && (forall i :: 0 <= i < PieceSize ==> s.piece[i].pos.y >= fall)
    ensures var r := Step(Start(roll1), Key(HardDrop), roll2);
            |r.grid| == PieceSize && r.score == LockBonus && !r.gameOver
  {
    FirstDropDistance(roll1);
    FirstHardDropResult(roll1, roll2);
  }

  lemma FirstDropDistance(roll: nat)
    ensures var s := Start(roll);
            var fall := DropToRest(s.grid, s.piece, s.center).fall;
            && (exists i :: 0 <= i < PieceSize && s.piece[i].pos.y == fall)
            && (forall i :: 0 <= i < PieceSize ==> s.piece[i].pos.y >= fall)
  {
    var s := Start(roll);
    StartPiece(roll);
    DropOnEmptyField(s.piece, s.center);
  }

  lemma FirstHardDropResult(roll1: nat, roll2: nat)
    ensures var r := Step(Start(roll1), Key(HardDrop), roll2);
            |r.grid| == PieceSize && r.score == LockBonus && !r.gameOver
  {
    var s := Start(roll1);
    StartPiece(roll1);
    HardDropOnEmptyField(s, roll2);
    StepHardDrop(s, roll2);
  }

  lemma StepHardDrop(s: Session, roll: nat)
    requires |s.piece| > 0
    ensures Step(s, Key(HardDrop), roll) == HardDropPiece(s, roll)
  {
  }

  /** If every cube of `g` is at height `k`, the layer at `k` is all of `g`
      and every other layer is empty. */
  lemma {:induction false} SingleLayer(g: seq<Cube>, k: int, m: int)
    requires forall i :: 0 <= i < |g| ==> g[i].pos.y == k
    ensures Layer(g, m) == if m == k then g else []
  {
    if |g| != 0 {
      SingleLayer(g[1..], k, m);
      assert g == [g[0]] + g[1..];
    }
  }

  /** A layer that is not full is passed over. */
  lemma ClearFromPass(g: seq<Cube>, y: nat)
    requires y < Height
    requires forall k :: 0 <= k <= y ==> !Full(g, k)
    ensures ClearFrom(g, y) == ClearFrom(g, y + 1)
  {
  }

  /** The layers of one full layer at height 5 plus one cube at height 6. */
  lemma FullPlusOneLayers(full: seq<Cube>, c: Cube, k: int)
    requires forall i :: 0 <= i < |full| ==> full[i].pos.y == 5
    requires c.pos.y == 6
    ensures Layer(full + [c], k) == (if k == 5 then full else []) + (if k == 6 then [c] else [])
  {
    LayerAppend(full, [c], k);
    SingleLayer(full, 5, k);
    SingleLayer([c], 6, k);
  }

  lemma {:induction false} ClearLayerAppend(a: seq<Cube>, b: seq<Cube>, y: int)
    ensures ClearLayer(a + b, y) == ClearLayer(a, y) + ClearLayer(b, y)
  {
    if |a| != 0 {
      assert (a + b)[0] == a[0];
      assert (a + b)[1..] == a[1..] + b;
      ClearLayerAppend(a[1..], b, y);
    } else {
      assert a + b == b;
    }
  }

  /** Clearing a layer removes every cube that was in it. */
  lemma {:induction false} ClearWholeLayer(g: seq<Cube>, y: int)
    requires forall i :: 0 <= i < |g| ==> g[i].pos.y == y
    ensures ClearLayer(g, y) == []
  {
    if |g| != 0 {
      ClearWholeLayer(g[1..], y);
    }
  }

  /** Clearing height 5 there leaves only the extra cube, one lower. */
  lemma FullPlusOneClearLayer(full: seq<Cube>, c: Cube)
    requires forall i :: 0 <= i < |full| ==> full[i].pos.y == 5
    requires c.pos.y == 6
    ensures ClearLayer(full + [c], 5) == [Lower(c)]
  {
    ClearLayerAppend(full, [c], 5);
    ClearWholeLayer(full, 5);
    assert ClearLayer([c], 5) == [Lower(c)];
  }

  /** A layer of Width * Depth cubes at height 5 and one more cube at height
      6: the pass clears exactly one layer and leaves just that cube, now at
      height 5. */
  lemma FullPlusOneClears(full: seq<Cube>, c: Cube)
    requires |full| == LayerSize
    requires forall i :: 0 <= i < |full| ==> full[i].pos.y == 5
    requires c.pos.y == 6
    ensures ClearFullLayers(full + [c]) == Cleared([c.(pos := c.pos.(y := 5))], 1)
  {
    var g := full + [c];
    forall k | 0 <= k < 5
      ensures !Full(g, k)
    {
      FullPlusOneLayers(full, c, k);
    }
    ClearFromPass(g, 0);
    ClearFromPass(g, 1);
    ClearFromPass(g, 2);
    ClearFromPass(g, 3);
    ClearFromPass(g, 4);
    FullPlusOneLayers(full, c, 5);
    assert Full(g, 5);
    FullPlusOneClearLayer(full, c);
    var g' := [Lower(c)];
    SmallGridNothingFull(g');
    ClearFromNothingFull(g', 5);
    assert Lower(c) == c.(pos := c.pos.(y := 5));
  }

  /** Locking that cube: one layer cleared, and the score grows by the lock
      bonus plus one layer bonus. */
  lemma CompleteOneLayer(full: seq<Cube>, c: Cube, score: int)
    requires |full| == LayerSize
    requires forall i :: 0 <= i < |full| ==> full[i].pos.y == 5
    requires c.pos.y == 6
    ensures var m := Merge(full, [c], score, false);
            m.layers == 1 && m.score == score + LockBonus + LayerBonus && !m.gameOver
            && m.grid == [c.(pos := c.pos.(y := 5))]
  {
    assert !ReachesCeiling([c]);
    FullPlusOneClears(full, c);
  }
}

=== FILE: shape.dfy ===
/** Two invariants of the falling piece, kept by every input.

    The piece is always an archetype turned about its centre: each cube's
    offset from the centre is the archetype offset it was spawned with,
    turned by some number of quarter turns. Spawning sets this up, moves
    shift the centre together with the cubes, and rotation turns every
    offset about the centre. And the four cubes always share one material:
    spawning and recolouring give every cube the same one, and nothing else
    touches materials.
 */
module Shape {
  import opened Geometry
  import opened Field
  import opened Piece
  import opened Game

  /** `n` quarter turns in the +90 degree direction. */
  function TurnTimes(n: nat, v: Pos): Pos
    decreases n
  {
    if n == 0 then v else TurnOffset(Plus90, TurnTimes(n - 1, v))
  }

  /** A -90 degree turn is three +90 degree turns. */
  lemma MinusIsThreePlus(v: Pos)
    ensures TurnOffset(Minus90, v) == TurnOffset(Plus90, TurnOffset(Plus90, TurnOffset(Plus90, v)))
  {
  }

  /** Turning an offset that has had `n` quarter turns gives `n + 1` of them
      for +90 degrees and `n + 3` for -90 degrees. */
  lemma TurnAgain(t: Turn, n: nat, v: Pos)
    ensures TurnOffset(t, TurnTimes(n, v)) == TurnTimes(n + (if t == Plus90 then 1 else 3), v)
  {
    if t == Minus90 {
      MinusIsThreePlus(TurnTimes(n, v));
      assert TurnTimes(n + 3, v) == TurnOffset(Plus90, TurnTimes(n + 2, v));
      assert TurnTimes(n + 2, v) == TurnOffset(Plus90, TurnTimes(n + 1, v));
    }
  }

  /** The falling piece is archetype `roll % 7` turned `n` quarter turns
      about the session's centre. */
  ghost predicate ShapedBy(s: Session, roll: nat, n: nat) {
    && |s.piece| == PieceSize
    && forall i :: 0 <= i < PieceSize ==> Sub(s.piece[i].pos, s.center) == TurnTimes(n, ShapeOf(roll)[i])
  }

  ghost predicate Shaped(s: Session) {
    exists roll: nat, n: nat :: ShapedBy(s, roll, n)
  }

  /** All cubes of the piece share one material. */
  predicate OneMaterial(piece: seq<Cube>) {
    forall i, j :: 0 <= i < |piece| && 0 <= j < |piece| ==> piece[i].material == piece[j].material
  }

  /** A freshly spawned piece is its archetype, unturned. */
  lemma SpawnShaped(s: Session, roll: nat)
    ensures ShapedBy(Spawn(s, roll), roll, 0)
    ensures OneMaterial(Spawn(s, roll).piece)
  {
  }

  /** Moving the piece and its centre together keeps its shape. */
  lemma TranslateShaped(s: Session, roll: nat, n: nat, d: Pos)
    requires ShapedBy(s, roll, n)
    ensures ShapedBy(s.(piece := Translate(s.piece, d), center := Add(s.center, d)), roll, n)
    ensures OneMaterial(s.piece) ==> OneMaterial(Translate(s.piece, d))
  {
    var r := s.(piece := Translate(s.piece, d), center := Add(s.center, d));
    forall i | 0 <= i < PieceSize
      ensures Sub(r.piece[i].pos, r.center) == Sub(s.piece[i].pos, s.center)
    {
      assert r.piece[i].pos == Add(s.piece[i].pos, d);
    }
  }

  /** Turning the piece about its centre adds one (or three) quarter turns. */
  lemma RotateShaped(s: Session, roll: nat, n: nat, t: Turn)
    requires ShapedBy(s, roll, n)
    ensures ShapedBy(s.(piece := Rotate(s.piece, s.center, t)), roll, n + (if t == Plus90 then 1 else 3))
    ensures OneMaterial(s.piece) ==> OneMaterial(Rotate(s.piece, s.center, t))
  {
    forall i | 0 <= i < PieceSize
      ensures Sub(Rotate(s.piece, s.center, t)[i].pos, s.center)
              == TurnTimes(n + (if t == Plus90 then 1 else 3), ShapeOf(roll)[i])
    {
      TurnAgain(t, n, ShapeOf(roll)[i]);
    }
  }

  /** Locking and spawning: either the game ended and the piece stays where
      it was, or a new unturned archetype appears. */
  lemma LockAndSpawnShaped(s: Session, roll: nat, roll0: nat, n: nat)
    requires ShapedBy(s, roll0, n)
    ensures Shaped(LockAndSpawn(s, roll))
    ensures OneMaterial(s.piece) ==> OneMaterial(LockAndSpawn(s, roll).piece)
  {
    if Lock(s).gameOver {
      assert ShapedBy(LockAndSpawn(s, roll), roll0, n);
    } else {
      SpawnShaped(Lock(s), roll);
      assert ShapedBy(LockAndSpawn(s, roll), roll, 0);
    }
  }

  /** The first piece of a game is shaped and of one material. */
  lemma StartShaped(roll: nat)
    ensures Shaped(Start(roll)) && OneMaterial(Start(roll).piece)
  {
    SpawnShaped(Session([], [], Zero, false, false, 0, 0), roll);
    assert ShapedBy(Start(roll), roll, 0);
  }

  /** Every input keeps the piece an archetype turned about its centre. */
  lemma StepShaped(s: Session, e: Event, roll: nat)
    requires Shaped(s)
    ensures Shaped(Step(s, e, roll))
  {
    var roll0: nat, n: nat :| ShapedBy(s, roll0, n);
    match e
    case FallDue =>
      if !s.paused && !s.gameOver {
        if CheckCollision(Down, s.piece, s.grid) {
          LockAndSpawnShaped(s, roll, roll0, n);
        } else {
          TranslateShaped(s, roll0, n, Down);
          assert ShapedBy(Step(s, e, roll), roll0, n);
        }
      } else {
        assert ShapedBy(Step(s, e, roll), roll0, n);
      }
    case Key(cmd) =>
      match cmd
      case Reset =>
        SpawnShaped(Session([], s.piece, s.center, false, false, 0, s.material), roll);
        assert ShapedBy(Step(s, e, roll), roll, 0);
      case TogglePause =>
        assert ShapedBy(Step(s, e, roll), roll0, n);
      case CycleMaterial =>
        assert ShapedBy(Step(s, e, roll), roll0, n);
      case Move(dir) =>
        TranslateShaped(s, roll0, n, Delta(dir));
        assert ShapedBy(Step(s, e, roll), roll0, n);
      case HardDrop =>
        HardDropShaped(s, roll, roll0, n);
      case RotateBy(t) =>
        RotateShaped(s, roll0, n, t);
        if Step(s, e, roll) == s {
          assert ShapedBy(Step(s, e, roll), roll0, n);
        } else {
          assert ShapedBy(Step(s, e, roll), roll0, n + (if t == Plus90 then 1 else 3));
        }
  }

  lemma HardDropShaped(s: Session, roll: nat, roll0: nat, n: nat)
    requires ShapedBy(s, roll0, n)
    ensures Shaped(HardDropPiece(s, roll))
    ensures OneMaterial(s.piece) ==> OneMaterial(HardDropPiece(s, roll).piece)
  {
    if s.paused || s.gameOver {
      assert ShapedBy(HardDropPiece(s, roll), roll0, n);
    } else {
      var d := DropToRest(s.grid, s.piece, s.center);
      TranslateShaped(s, roll0, n, DownBy(d.fall));
      LockAndSpawnShaped(s.(piece := d.piece, center := d.center), roll, roll0, n);
    }
  }

  /** Every input keeps the four cubes of the piece in one material. */
  lemma StepOneMaterial(s: Session, e: Event, roll: nat)
    requires Shaped(s) && OneMaterial(s.piece)
    ensures OneMaterial(Step(s, e, roll).piece)
  {
    var roll0: nat, n: nat :| ShapedBy(s, roll0, n);
    match e
    case FallDue =>
      if !s.paused && !s.gameOver {
        if CheckCollision(Down, s.piece, s.grid) {
          LockAndSpawnShaped(s, roll, roll0, n);
        } else {
          TranslateShaped(s, roll0, n, Down);
        }
      }
    case Key(cmd) =>
      match cmd
      case Reset =>
        SpawnShaped(Session([], s.piece, s.center, false, false, 0, s.material), roll);
      case TogglePause =>
      case CycleMaterial =>
      case Move(dir) =>
        TranslateShaped(s, roll0, n, Delta(dir));
      case HardDrop =>
        HardDropShaped(s, roll, roll0, n);
      case RotateBy(t) =>
        RotateShaped(s, roll0, n, t);
  }

  /** Along any run of inputs from the start of a game, the piece stays an
      archetype turned about its centre, all in one material. */
  lemma {:induction false} RunShaped(s: Session, inputs: seq<Input>)
    requires Inv(s) && Shaped(s) && OneMaterial(s.piece)
    ensures Shaped(Run(s, inputs)) && OneMaterial(Run(s, inputs).piece)
    decreases |inputs|
  {
    if |inputs| != 0 {
      var e := inputs[0].event;
      var roll := inputs[0].roll;
      StepInv(s, e, roll);
      StepShaped(s, e, roll);
      StepOneMaterial(s, e, roll);
      RunShaped(Step(s, e, roll), inputs[1..]);
    }
  }
}
